=== FILE: README.md ===
# The claxon bootstrap scanner in Dafny

This project models the lexical scanner of the claxon bootstrap compiler.

The main model is the C scanner in `bootstrap.c`. It works over a NUL-terminated source buffer. Each call to `Scanner_scan` does two things:

- it skips spaces and newlines;
- it returns one token: a type plus the sub-range of the buffer the token covers.

It recognises:

- integer literals;
- identifiers and the thirteen reserved words, through a hand-written keyword automaton;
- single-quoted string literals, whose only escape is `\0`;
- nine one-character punctuation tokens;
- the arrows `->` and `=>`, each found by one character of lookahead;
- END at the sentinel.

Every other character aborts the scan.

The Python stage `bootstrap/scanner.py` is modelled separately. It skips whitespace, counts newlines, and either returns EOF or raises.

How the model represents the C scanner:

- The buffer is a Dafny `string` whose last character is the NUL sentinel and which holds no NUL before it (`Tokens.ValidSource`).
- The C cursor pointer becomes an index into that string.
- A token is `Token(kind, start, length)`: a sub-range of the buffer, never a copy.
- Every `assert(false)` of the C code becomes an `Err` value of `Scanning.ScanError`:
  - `UnsupportedEscape(at)`: the character after a backslash is not `0`;
  - `UnterminatedString(at)`: the sentinel is reached inside a string;
  - `UnrecognizedCharacter(at, ch)`: no case of the dispatch matches.

The C functions map to the model as follows:

- `Scanner_consumeWhitespace`, `Scanner_symbol`, `Scanner_keyword`, `Scanner_singleCharToken` and `Scanner_doubleCharToken` each become one function.
- `Scanner_scan` becomes `Scanning.Scan`, which calls `ScanAt` on the first non-blank position.
- `ScanAt` splits the C switch by character class:
  - digits go to `ScanInteger`;
  - letters and underscore go to `ScanWord`, which delegates to `ScanE`, `ScanF` and `ScanL` for the cases that look at a second character;
  - everything else goes to `ScanOther`.

  Together these cover the same cases, in the same way, as the single C switch.
- The driver loop of `main` becomes `TokenStream.Tokenize`.

The properties are proved against reference definitions that do not follow the shape of the C code:

- `Tokens.WordType`: the reserved-word table;
- `Tokens.MaximalSymbolRun` and `Tokens.MaximalDigitRun`: maximal runs of a character class;
- `Tokens.EscapedText`: a well-formed string body;
- `Tokens.SingleCharTokens`: the punctuation table;
- `TokenStream.Tiles`: the tokens and blanks exactly cover the buffer;
- `TokenStream.Reached`: the positions the driver loop scans at.

Files:

- `wrappers.dfy`: the `Result` type;
- `tokens.dfy`: token types, tokens, character classes and the reference definitions;
- `reserved_words.dfy`: the reserved words as the dispatch sees them, by their first one or two characters;
- `scanning.dfy`: the C scanner;
- `scan_laws.dfy`: what one scan produces, stated against the reference definitions;
- `token_stream.dfy`: the driver loop and the tiling property;
- `scan_examples.dfy`: complete token streams of small buffers;
- `py_scanner.dfy`: the Python scanner and its unit tests.

## Model

| member | source | states |
|---|---|---|
| Tokens.SymbolCharsAreLetters | bootstrap.c:242-244 | `isSymbolChar` accepts exactly the underscore and the 52 ASCII letters, and no digit |
| Scanning.Init | bootstrap.c:236-240 | `Scanner_init` starts with the cursor on the first character, which lies inside every well-formed buffer, on line 1 and not panicking |
| Scanning.SkipBlanks | bootstrap.c:287-302 | skips a maximal run of spaces and newlines and stops inside the buffer on a non-blank character; tab and carriage return are not blanks |
| Scanning.SymbolRunEnd | bootstrap.c:247 | the identifier loop stops at the end of the maximal run of symbol characters |
| Scanning.DigitRunEnd | bootstrap.c:324 | the digit loop stops at the end of the maximal run of decimal digits |
| Scanning.ScanSymbol | bootstrap.c:246-251 | `Scanner_symbol` returns a `Symbol` token covering the maximal symbol run from its start, including the characters already consumed |
| Scanning.ScanKeyword | bootstrap.c:253-272 | `Scanner_keyword` returns the maximal symbol run from the start. Its type is the keyword's exactly when the run, read from the cursor, equals the suffix; otherwise it is `Symbol` |
| Scanning.SingleCharToken | bootstrap.c:274-278 | `Scanner_singleCharToken` covers exactly the character under the cursor, with the given type, and the cursor ends right after it |
| Scanning.DoubleCharToken | bootstrap.c:280-285 | `Scanner_doubleCharToken` covers exactly the two characters from the cursor, with the given type, and the cursor ends right after them |
| Scanning.SecondCharKeyword | bootstrap.c:344-399 | a keyword case entered after two characters of the word (as for `else`, `enum`, `false`, `for`, `fn`, `let`, `loop`) yields the maximal symbol run, of the type the reserved-word table gives that run |
| Scanning.StringEnd | bootstrap.c:469-498 | the string loop ends just after the first closing quote of a well-formed body. It fails at the first escape other than `\0`, or at the sentinel, whichever comes first |
| Scanning.ScanInteger | bootstrap.c:310-328 | a digit starts an integer literal spanning the maximal digit run |
| Scanning.ScanE | bootstrap.c:337-355 | the `e` case yields the maximal symbol run, of the type the reserved-word table gives that run: `else`, `enum` or a symbol |
| Scanning.ScanF | bootstrap.c:357-378 | the `f` case yields the maximal symbol run, of the type the reserved-word table gives that run: `false`, `for`, `fn` or a symbol |
| Scanning.ScanL | bootstrap.c:387-404 | the `l` case yields the maximal symbol run, of the type the reserved-word table gives that run: `let`, `loop` or a symbol |
| Scanning.ScanWord | bootstrap.c:330-467 | the letter and underscore cases yield the maximal symbol run from the start. The scan fails exactly on the lower-case letters g h j k q u v w x y z, which the switch does not list |
| Scanning.ScanOther | bootstrap.c:469-550 | the string, punctuation, arrow and sentinel cases. END is produced exactly at the sentinel and is the only empty token. The scan fails as an unrecognised character exactly when no case covers the character |
| Scanning.ScanAt | bootstrap.c:309-551 | the whole dispatch: the token starts at the position and the cursor ends after it. END occurs exactly at the sentinel. The scan fails as unrecognised exactly on characters no case covers |
| Scanning.Scan | bootstrap.c:304-552 | skips blanks, then scans one token that starts at the first non-blank position. Only the cursor changes; the line counter and the panic flag are unchanged |
| ReservedWords.PrefixDecides | bootstrap.c:330-432 | every reserved word is the only one with its first one or two characters, the characters on which the switch dispatches |
| ReservedWords.KeywordBranch | bootstrap.c:253-272 | a keyword branch of the dispatch gives the run the type the reserved-word table gives it |
| ReservedWords.PlainBranch | bootstrap.c:352-467 | a word the dispatch sends straight to `Scanner_symbol` is not reserved |
| ScanLaws.BranchesBI | bootstrap.c:330-385 | the `b` and `i` cases yield the maximal run, typed by the reserved-word table |
| ScanLaws.BranchesMN | bootstrap.c:406-418 | the `m` and `n` cases yield the maximal run, typed by the reserved-word table |
| ScanLaws.BranchesST | bootstrap.c:420-432 | the `s` and `t` cases yield the maximal run, typed by the reserved-word table |
| ScanLaws.WordLaw | bootstrap.c:330-467 | every dispatched letter or underscore starts the maximal symbol run, and its type is the reserved-word table's type for that run (`Symbol` when the run is not reserved) |
| ScanLaws.ReservedShape | bootstrap.c:330-432 | every reserved word has at least two symbol characters and starts with a letter the dispatch lists |
| ScanLaws.ReservedPrefix | bootstrap.c:330-432 | every reserved word is told apart after one character, or two for those starting with `e`, `f` or `l` |
| ScanLaws.ReservedTypes | bootstrap.c:52-84 | a word is reserved exactly when the table gives it one of the thirteen keyword token types |
| ScanLaws.ReservedOccurrence | bootstrap.c:242-244 | an occurrence of a reserved word in the buffer is a run of symbol characters starting with a dispatched letter |
| ScanLaws.NoReservedExtension | bootstrap.c:255-258 | no reserved word is a proper prefix of another, so extending one with symbol characters gives a plain symbol |
| ScanLaws.ReservedRun | bootstrap.c:253-272 | when the buffer holds a reserved word, the word token is exactly that word if a non-symbol character follows, and a longer `Symbol` otherwise |
| ScanLaws.KeywordAlone | bootstrap.c:253-263 | a reserved word followed by a non-symbol character is scanned as its keyword token, spanning exactly the word |
| ScanLaws.KeywordExtended | bootstrap.c:255-258 | a reserved word followed by a symbol character starts one `Symbol` token spanning the whole maximal run (`foreign` is one symbol) |
| ScanLaws.IntegerLaw | bootstrap.c:310-328 | a digit starts an integer literal that is exactly the maximal digit run |
| ScanLaws.PunctuationLaw | bootstrap.c:500-525 | each of `& { } , ( ) . ; *` is a one-character token of the type the punctuation table gives it |
| ScanLaws.LookaheadLaw | bootstrap.c:527-543 | `-` and `=` followed by `>` are two-character arrows; otherwise they are one-character tokens, so `-` never starts a number |
| ScanLaws.StringBodySkipped | bootstrap.c:472-497 | the string loop passes over a well-formed body without stopping |
| ScanLaws.StringLaw | bootstrap.c:469-498 | after a well-formed body, a quote closes the literal, a backslash not followed by `0` fails at that character, and the sentinel fails as unterminated |
| ScanLaws.EndLaw | bootstrap.c:545-547 | at the sentinel, END is returned with the cursor left on the sentinel, so scanning again returns END again |
| ScanLaws.UnrecognizedLaw | bootstrap.c:549-550 | a character no case covers makes the scan fail at that position with that character |
| ScanLaws.RejectedCharacters | bootstrap.c:549-550 | tab, carriage return, `>` and the undispatched lower-case letters start no token |
| ScanLaws.NoGreaterThan | bootstrap.c:68 | the declared `GreaterThan` type is never produced |
| ScanLaws.SkipBlanksAcross | bootstrap.c:287-302 | skipping from anywhere inside a run of blanks stops at the same place |
| ScanLaws.BlanksDoNotMatter | bootstrap.c:304-305 | starting a scan anywhere in the blank run before a token gives the same result |
| ScanLaws.WordTokensAreMaximal | bootstrap.c:246-272 | every `Symbol` or keyword token is the maximal symbol run from its start, typed by the reserved-word table |
| TokenStream.Tokenize | bootstrap.c:560-564 | repeated scans until END or the first error. A successful stream's tokens and the blanks between them tile the buffer, the stream ends with END on the sentinel, and there is at most one token per remaining character (the failing side is stated by `TokenStream.TokenizeErr`) |
| TokenStream.TokenizeScans | bootstrap.c:560-564 | every token of the stream is the one a single scan at its start returns, the first starts after the blanks at the initial cursor, and each later one after the blanks that follow the token before it; so every law about one scan holds of every token, kinds included |
| TokenStream.TokenizeErr | bootstrap.c:560-564 | a failing stream fails at the first failing scan of the loop: its error is the one `ScanAt` returns at a position the loop reaches (`Reached`), after scans that all succeeded with tokens other than END; so the stream is `Ok` whenever no scan at a reached position fails |
| ScanExamples.Foreign | bootstrap.c:357-378 | `foreign` scans as one symbol followed by END |
| ScanExamples.Arrows | bootstrap.c:527-543 | `->=>` scans as the two arrows followed by END |
| ScanExamples.UndispatchedIdentifier | bootstrap.c:549-550 | in `let x = 1;` the stream stops with an error at `x` |
| ScanExamples.IntegerStatementEnd | bootstrap.c:310-328 | the end of `let a = 42;` scans as an integer literal, a semicolon and END |
| ScanExamples.EscapedString | bootstrap.c:469-498 | `'a\0b'` is one string literal |
| ScanExamples.BadEscape | bootstrap.c:480-488 | `'a\nb'` (backslash and `n`) fails at the `n` |
| ScanExamples.MissingClosingQuote | bootstrap.c:491-492 | `'ab` fails at the sentinel |
| PyScanner.Init | bootstrap/scanner.py:16-19 | `__init__` keeps the source and starts at index 0 on line 1, where the line already equals one plus the newlines before the index |
| PyScanner.SkipWhitespace | bootstrap/scanner.py:22-26 | skips a maximal run of space, tab, carriage return and newline, adding the number of newlines skipped to the line |
| PyScanner.Scan | bootstrap/scanner.py:21-31 | returns EOF on the line reached exactly when only whitespace remains; otherwise raises at the first non-whitespace character. The index never passes the end of the source |
| PyScanner.ScanKeepsLineAgreement | bootstrap/scanner.py:21-26 | `scan` keeps the line equal to one plus the number of newlines before the index, so every scanner reached from `__init__` reports the line it is on |
| PyScanner.ScanIsSticky | bootstrap/scanner.py:28-31 | calling `scan` again after a call returns the same outcome again |
| PyScanner.TestScanEof | bootstrap/scanner.py:34-40 | the empty source is EOF on line 1 |
| PyScanner.TestConsumeWhitespace | bootstrap/scanner.py:42-48 | space, tab and carriage return are skipped, and the line stays 1 |
| PyScanner.TestLineIncrement | bootstrap/scanner.py:50-56 | a newline moves to line 2 |

## Left out

- Reading the source file (`readSource`) is left out because it is I/O. The model starts from a buffer that already ends in the NUL sentinel.
- Printing tokens (`Token_println`) is left out because it is output only. It also prints `SEMICOLON` for a star token; that mislabel is not modelled.
- The `main` driver is modelled only as the `TokenStream.Tokenize` loop. Its printing and its `free` are left out.
- Scanning.Scan: the line counter is carried but never incremented. The C scanner never changes `line` after `Scanner_init`.
- Scanning.Scan: the panic flag is carried unchanged, because the C scanner never sets it.
- Each `assert(false)` of the C code is modelled as a returned error rather than a process abort. What the three sites do when assertions are compiled out (`NDEBUG`) is not modelled:
  - at bootstrap.c:487 any escape character is accepted, the NUL included, and the string loop goes on; when the backslash is the last character before the sentinel, line 481 steps onto the sentinel and the next turn of the loop (line 473) steps past it, so the loop reads beyond the buffer;
  - at bootstrap.c:491-492 the loop falls through and goes on reading past the sentinel, so this site also reads beyond the buffer;
  - at bootstrap.c:550 control falls off the end of `Scanner_scan`, a non-void function, so the returned token is undefined.
- Tokens.ValidSource: the buffer holds no NUL before its sentinel. `readSource` copies the file's bytes unchanged (bootstrap.c:33) and only appends the terminator (bootstrap.c:45), so a file holding a NUL byte gives a buffer the model does not cover. On such a buffer the C scanner returns END at the first NUL (bootstrap.c:545-547), fails as an unsupported escape when the NUL follows a backslash inside a string literal (bootstrap.c:487), or fails as unterminated when it comes anywhere else inside a string literal (bootstrap.c:491-492).
- C `char` signedness and bytes outside ASCII are not modelled. Characters are Dafny `char`s, and only their identity matters to every case of the dispatch.
- TokenStream.Tokenize: the tiling property does not model the C pointer arithmetic. Token text is a `(start, length)` range, not a pointer into the buffer.
- `bootstrap/parser.py` is not part of this model. It does not consume the Python scanner's tokens in a consistent way.
- The Python scanner's `unittest` runner is not modelled. The three tests are stated as lemmas about the model.

=== FILE: py_scanner.dfy ===
/** The Python scanner of bootstrap/scanner.py, an earlier and much smaller
    stage: it skips whitespace, counts the newlines it skips, and returns EOF
    or raises. */
module PyScanner {
  import opened Wrappers

  /** The only token type this stage defines. */
  datatype TokenType = EOF

  /** Unlike the C tokens, a token here carries its text and its line. */
  datatype Token = Token(kind: TokenType, text: string, line: int)

  /** The scanner object: the source, the index of the next character, and
      the current line, starting at 1. */
  datatype Scanner = Scanner(source: string, index: nat, line: int)

  /** The bare exception `scan` raises. It carries no arguments; the model
      records the index the scan stopped at. */
  datatype ScanError = UnexpectedCharacter(index: nat)

  /** What `scan` returns or raises, together with the scanner object after
      the call: the whitespace loop has already moved it when `scan` raises. */
  datatype Step = Step(outcome: Result<Token, ScanError>, after: Scanner)

  const WhitespaceCharacters: set<char> := {' ', '\t', '\r', '\n'}

  /** The line number agrees with the position: it is one more than the
      number of newlines before the index. */
  ghost predicate LineAgrees(s: Scanner) {
    s.index <= |s.source| && s.line == 1 + Newlines(s.source[..s.index])
  }

  /** `Scanner.__init__`: the scanner over `source` before its first
      character, where the line number already agrees with the newlines
      passed, of which there are none. */
  function Init(source: string): (r: Scanner)
    ensures r.source == source && r.index == 0 && r.line == 1
    ensures LineAgrees(r)
  {
    Scanner(source, 0, 1)
  }

  /** The number of newlines in `s`. */
  function Newlines(s: string): nat {
    multiset(s)['\n']
  }

  /** The loop at the head of `scan`: skip whitespace, adding one to the line
      for each newline skipped. It stops at the first non-whitespace
      character or at the end of the source. */
  function SkipWhitespace(source: string, index: nat, line: int): (r: (nat, int))
    requires index <= |source|
    ensures index <= r.0 <= |source|
    ensures forall k :: index <= k < r.0 ==> source[k] in WhitespaceCharacters
    ensures r.0 < |source| ==> source[r.0] !in WhitespaceCharacters
    ensures r.1 == line + Newlines(source[index..r.0])
    decreases |source| - index
  {
    if index < |source| && source[index] in WhitespaceCharacters then
      var r := SkipWhitespace(source, index + 1, if source[index] == '\n' then line + 1 else line);
      assert source[index..r.0] == [source[index]] + source[index + 1..r.0];
      r
    else
      assert source[index..index] == [];
      (index, line)
  }

  /** `Scanner.scan`. It returns EOF, on the line reached, exactly when only
      whitespace remains; otherwise it raises at the first character that is
      not whitespace. Either way the index has passed the whitespace, never
      beyond the end of the source, and the line has grown by the number of
      newlines passed. */
  function Scan(s: Scanner): (r: Step)
    requires s.index <= |s.source|
    ensures r.after.source == s.source
    ensures s.index <= r.after.index <= |s.source|
    ensures r.after.line == s.line + Newlines(s.source[s.index..r.after.index])
    ensures r.outcome.Ok? <==> forall k :: s.index <= k < |s.source| ==> s.source[k] in WhitespaceCharacters
    ensures r.outcome.Ok? ==>
      r.outcome.value == Token(EOF, "", r.after.line) && r.after.index == |s.source|
    ensures r.outcome.Err? ==>
      && r.outcome.error == UnexpectedCharacter(r.after.index)
      && r.after.index < |s.source|
      && s.source[r.after.index] !in WhitespaceCharacters
  {
    var (index, line) := SkipWhitespace(s.source, s.index, s.line);
    var after := Scanner(s.source, index, line);
    if index == |s.source| then Step(Ok(Token(EOF, "", line)), after)
    else Step(Err(UnexpectedCharacter(index)), after)
  }

  /** Scanning again after a scan changes nothing: once at EOF every further
      call returns EOF on the same line, and after a raise the next call
      raises at the same character. */
  lemma ScanIsSticky(s: Scanner)
    requires s.index <= |s.source|
    ensures Scan(Scan(s).after) == Scan(s)
  {
    var a := Scan(s).after;
    assert a.source[a.index..a.index] == [];
  }

  /** `scan` keeps the line number in agreement with the index, so on every
      scanner reached from `__init__` the line is one more than the number
      of newlines before the index. */
  lemma ScanKeepsLineAgreement(s: Scanner)
    requires LineAgrees(s)
    ensures LineAgrees(Scan(s).after)
  {
    var a := Scan(s).after;
    assert s.source[..a.index] == s.source[..s.index] + s.source[s.index..a.index];
  }

  /** The unit test `test_scan_eof`: the empty source is EOF on line 1. */
  lemma TestScanEof()
    ensures Scan(Init("")).outcome == Ok(Token(EOF, "", 1))
  {
  }

  /** The unit test `test_consume_whitespace`: space, tab and carriage return
      are skipped without changing the line. */
  lemma TestConsumeWhitespace()
    ensures Scan(Init(" \t\r")).outcome == Ok(Token(EOF, "", 1))
  {
  }

  /** The unit test `test_line_increment`: a newline moves to line 2. */
  lemma TestLineIncrement()
    ensures Scan(Init("\n")).outcome == Ok(Token(EOF, "", 2))
  {
  }

}

=== FILE: reserved_words.dfy ===
/** The reserved words as the dispatch of `Scanner_scan` sees them: each is
    told apart from the others by its first one or two characters, after
    which `Scanner_keyword` only compares the rest. */
module ReservedWords {
  import opened Tokens

  /** A word that starts like `word` and continues with `suffix` exactly when
      it is `word`. */
  lemma SplitWord(src: string, p: nat, k: nat, e: nat, word: string)
    requires p + k <= e <= |src| && k <= |word|
    requires src[p..p + k] == word[..k]
    ensures src[p..e] == word <==> src[p + k..e] == word[k..]
  {
    if src[p + k..e] == word[k..] {
      assert src[p..e] == src[p..p + k] + src[p + k..e];
      assert word == word[..k] + word[k..];
    }
    if src[p..e] == word {
      assert src[p + k..e] == src[p..e][k..];
    }
  }

  /** The reserved words the dispatch of `Scanner_scan` tells apart by their
      first `k` characters. */
  const DispatchPrefixes: seq<(string, nat)> := [
    ("break", 1), ("if", 1), ("match", 1), ("nil", 1), ("struct", 1), ("true", 1),
    ("else", 2), ("enum", 2), ("false", 2), ("for", 2), ("fn", 2), ("let", 2), ("loop", 2)]

  /** Each reserved word is the only one with its first `k` characters, so a
      word that starts the same way is either that word or a plain symbol. */
  lemma PrefixDecides(v: string, word: string, k: nat)
    requires (word, k) in DispatchPrefixes
    requires k <= |v| && v[..k] == word[..k]
    ensures WordType(v) == (if v == word then WordType(word) else Symbol)
  {
    assert v[0] == word[0];
    if k == 2 {
      assert v[1] == word[1];
    }
  }

  /** The keyword branch of the dispatch for `word`, decided after its first
      `k` characters, gives the run from `p` the type the table gives it. */
  lemma KeywordBranch(src: string, p: nat, e: nat, word: string, k: nat, kind: TokenType)
    requires (word, k) in DispatchPrefixes
    requires p + k <= e <= |src|
    requires src[p] == word[0] && (k == 2 ==> src[p + 1] == word[1])
    requires kind == (if src[p + k..e] == word[k..] then WordType(word) else Symbol)
    ensures kind == WordType(src[p..e])
  {
    assert src[p..p + k] == word[..k];
    SplitWord(src, p, k, e, word);
    PrefixDecides(src[p..e], word, k);
  }

  /** The words the dispatch sends straight to `Scanner_symbol` are not
      reserved. */
  lemma PlainBranch(v: string)
    requires 1 <= |v|
    requires || v[0] !in "befilmnst"
             || (v[0] == 'e' && (|v| == 1 || v[1] !in "ln"))
             || (v[0] == 'f' && (|v| == 1 || v[1] !in "aon"))
             || (v[0] == 'l' && (|v| == 1 || v[1] !in "eo"))
    ensures WordType(v) == Symbol
  {
    if |v| >= 2 {
      assert v[1] == v[..2][1];
    }
  }

  /** The second character of a run, when there is one. */
  lemma SecondChar(src: string, p: nat, e: nat)
    requires p < e <= |src|
    ensures |src[p..e]| == 1 || src[p..e][1] == src[p + 1]
  {
  }

}

=== FILE: scan_examples.dfy ===
/** Whole token streams of a few small buffers, derived one scan at a time:
    each step states what `Scan` returns at the cursor and then what
    `Tokenize` returns from there. */
module ScanExamples {
  import opened Wrappers
  import opened Tokens
  import opened Scanning
  import opened TokenStream

  /** A word that starts like the keyword `for` but goes on is one
      identifier. */
  lemma Foreign(src: string)
    requires src == "foreign\0"
    ensures Tokenize(src, Init()) == Ok([Token(Symbol, 0, 7), Token(End, 7, 0)])
  {
    assert ValidSource(src);
    assert SymbolRunEnd(src, 7) == 7;
    assert SymbolRunEnd(src, 5) == 7;
    assert SymbolRunEnd(src, 3) == 7;
    assert ScanKeyword(src, For, 0, 3, "") == (Token(Symbol, 0, 7), 7);
    assert "for"[2..] == "r" && "r"[1..] == "";
    assert ScanKeyword(src, For, 0, 2, "r") == (Token(Symbol, 0, 7), 7);
    assert SecondCharKeyword(src, 0, For, "for") == (Token(Symbol, 0, 7), 7);
    assert ScanF(src, 0) == (Token(Symbol, 0, 7), 7);
    assert ScanAt(src, 0) == Ok((Token(Symbol, 0, 7), 7));
    assert ScanAt(src, 7) == Ok((Token(End, 7, 0), 7));
    assert Tokenize(src, Scanner(7, 1, false)) == Ok([Token(End, 7, 0)]);
    assert Scan(src, Scanner(0, 1, false)) == Ok(Scanned(Token(Symbol, 0, 7), Scanner(7, 1, false)));
    assert Tokenize(src, Scanner(0, 1, false)) == Ok([Token(Symbol, 0, 7)] + [Token(End, 7, 0)]);
    assert [Token(Symbol, 0, 7)] + [Token(End, 7, 0)] == [Token(Symbol, 0, 7), Token(End, 7, 0)];
  }

  /** `->` and `=>` are each one token, with no blank needed between them. */
  lemma Arrows(src: string)
    requires src == "->=>\0"
    ensures Tokenize(src, Init()) == Ok([Token(ArrowSingle, 0, 2), Token(ArrowDouble, 2, 2), Token(End, 4, 0)])
  {
    assert ValidSource(src);
    var t0, t1, t2 := Token(ArrowSingle, 0, 2), Token(ArrowDouble, 2, 2), Token(End, 4, 0);
    assert ScanAt(src, 4) == Ok((t2, 4));
    assert Tokenize(src, Scanner(4, 1, false)) == Ok([t2]);
    assert ScanAt(src, 2) == Ok((t1, 4));
    assert Scan(src, Scanner(2, 1, false)) == Ok(Scanned(t1, Scanner(4, 1, false)));
    assert Tokenize(src, Scanner(2, 1, false)) == Ok([t1] + [t2]);
    assert [t1] + [t2] == [t1, t2];
    assert ScanAt(src, 0) == Ok((t0, 2));
    assert Scan(src, Scanner(0, 1, false)) == Ok(Scanned(t0, Scanner(2, 1, false)));
    assert Tokenize(src, Scanner(0, 1, false)) == Ok([t0] + [t1, t2]);
    assert [t0] + [t1, t2] == [t0, t1, t2];
  }

  /** `x` is a symbol character, but the dispatch on the first character has
      no case for it, so the stream stops at it with an error. */
  lemma UndispatchedIdentifier(src: string)
    requires src == "let x = 1;\0"
    ensures Tokenize(src, Init()) == Err(UnrecognizedCharacter(4, 'x'))
  {
    assert ValidSource(src);
    assert SymbolRunEnd(src, 3) == 3;
    assert ScanAt(src, 0) == Ok((Token(Let, 0, 3), 3));
    assert SkipBlanks(src, 3) == 4;
    assert ScanAt(src, 4) == Err(UnrecognizedCharacter(4, 'x'));
    assert Tokenize(src, Scanner(3, 1, false)) == Err(UnrecognizedCharacter(4, 'x'));
  }

  /** The end of `let a = 42;` from the blank after `=`: blanks are skipped,
      a digit run is one integer literal, and the stream ends with END on the
      sentinel. */
  lemma IntegerStatementEnd(src: string)
    requires src == "let a = 42;\0"
    ensures Tokenize(src, Scanner(7, 1, false)) == Ok([
      Token(IntegerLiteral, 8, 2), Token(Semicolon, 10, 1), Token(End, 11, 0)])
  {
    assert ValidSource(src);
    var t3, t4, t5 := Token(IntegerLiteral, 8, 2), Token(Semicolon, 10, 1), Token(End, 11, 0);
    assert ScanAt(src, 11) == Ok((t5, 11));
    assert Tokenize(src, Scanner(11, 1, false)) == Ok([t5]);
    assert ScanAt(src, 10) == Ok((t4, 11));
    assert Scan(src, Scanner(10, 1, false)) == Ok(Scanned(t4, Scanner(11, 1, false)));
    assert Tokenize(src, Scanner(10, 1, false)) == Ok([t4] + [t5]);
    assert [t4] + [t5] == [t4, t5];
    assert DigitRunEnd(src, 9) == 10;
    assert ScanAt(src, 8) == Ok((t3, 10));
    assert SkipBlanks(src, 7) == 8;
    assert Scan(src, Scanner(7, 1, false)) == Ok(Scanned(t3, Scanner(10, 1, false)));
    assert Tokenize(src, Scanner(7, 1, false)) == Ok([t3] + [t4, t5]);
    assert [t3] + [t4, t5] == [t3, t4, t5];
  }

  /** A string literal whose body holds the one supported escape, `\0`. */
  lemma EscapedString(src: string)
    requires src == "'a\\0b'\0"
    ensures Tokenize(src, Init()) == Ok([Token(StringLiteralSingle, 0, 6), Token(End, 6, 0)])
  {
    assert ValidSource(src);
    assert StringEnd(src, 4) == Ok(6);
    assert StringEnd(src, 2) == Ok(6);
    assert StringEnd(src, 0) == Ok(6);
    assert ScanAt(src, 0) == Ok((Token(StringLiteralSingle, 0, 6), 6));
    assert ScanAt(src, 6) == Ok((Token(End, 6, 0), 6));
    assert Tokenize(src, Scanner(6, 1, false)) == Ok([Token(End, 6, 0)]);
    assert Scan(src, Scanner(0, 1, false))
        == Ok(Scanned(Token(StringLiteralSingle, 0, 6), Scanner(6, 1, false)));
    assert Tokenize(src, Scanner(0, 1, false)) == Ok([Token(StringLiteralSingle, 0, 6)] + [Token(End, 6, 0)]);
    assert [Token(StringLiteralSingle, 0, 6)] + [Token(End, 6, 0)]
        == [Token(StringLiteralSingle, 0, 6), Token(End, 6, 0)];
  }

  /** A backslash followed by anything but `0` is rejected where it stands. */
  lemma BadEscape(src: string)
    requires src == "'a\\nb'\0"
    ensures Tokenize(src, Init()) == Err(UnsupportedEscape(3))
  {
    assert ValidSource(src);
    assert StringEnd(src, 1) == Err(UnsupportedEscape(3));
    assert StringEnd(src, 0) == Err(UnsupportedEscape(3));
    assert ScanAt(src, 0) == Err(UnsupportedEscape(3));
  }

  /** A quote with no closing quote before the sentinel. */
  lemma MissingClosingQuote(src: string)
    requires src == "'ab\0"
    ensures Tokenize(src, Init()) == Err(UnterminatedString(3))
  {
    assert ValidSource(src);
    assert StringEnd(src, 2) == Err(UnterminatedString(3));
    assert StringEnd(src, 0) == Err(UnterminatedString(3));
    assert ScanAt(src, 0) == Err(UnterminatedString(3));
  }
}

=== FILE: scan_laws.dfy ===
/** What one call of the C scanner produces, stated against reference
    definitions that do not follow the shape of the dispatch: the reserved-word
    table, maximal runs, well-formed string bodies and the punctuation table. */
module ScanLaws {
  import opened Wrappers
  import opened Tokens
  import opened Scanning
  import opened ReservedWords

  /** The conclusion of `WordLaw`: the scan at `p` yields the maximal run of
      symbol characters from `p`, typed by the reserved-word table. */
  ghost predicate TypedMaximalRun(src: string, p: nat)
    requires ValidSource(src) && p < |src|
  {
    var r := ScanAt(src, p);
    && r.Ok?
    && MaximalSymbolRun(src, p, r.value.1)
    && r.value.0 == Token(WordType(src[p..r.value.1]), p, r.value.1 - p)
  }

  /** The branches for `b` and `i`, which call `Scanner_keyword` after one
      character. */
  lemma BranchesBI(src: string, p: nat)
    requires ValidSource(src) && p < |src| && src[p] in "bi"
    ensures TypedMaximalRun(src, p)
  {
    var (t, e) := ScanAt(src, p).value;
    match src[p]
    case 'b' => KeywordBranch(src, p, e, "break", 1, t.kind);
    case 'i' => KeywordBranch(src, p, e, "if", 1, t.kind);
  }

  /** The branches for `m` and `n`. */
  lemma BranchesMN(src: string, p: nat)
    requires ValidSource(src) && p < |src| && src[p] in "mn"
    ensures TypedMaximalRun(src, p)
  {
    var (t, e) := ScanAt(src, p).value;
    match src[p]
    case 'm' => KeywordBranch(src, p, e, "match", 1, t.kind);
    case 'n' => KeywordBranch(src, p, e, "nil", 1, t.kind);
  }

  /** The branches for `s` and `t`. */
  lemma BranchesST(src: string, p: nat)
    requires ValidSource(src) && p < |src| && src[p] in "st"
    ensures TypedMaximalRun(src, p)
  {
    var (t, e) := ScanAt(src, p).value;
    match src[p]
    case 's' => KeywordBranch(src, p, e, "struct", 1, t.kind);
    case 't' => KeywordBranch(src, p, e, "true", 1, t.kind);
  }

  /** Every identifier-shaped token is the maximal run of symbol characters
      from its start, and its type is the reserved type of that run when the
      run is a reserved word, `Symbol` otherwise. The fallback of
      `Scanner_keyword`, which never moves the cursor back, therefore loses
      nothing. */
  lemma WordLaw(src: string, p: nat)
    requires ValidSource(src) && p < |src|
    requires IsSymbolChar(src[p]) && src[p] !in UndispatchedLetters
    ensures ScanAt(src, p).Ok?
    ensures MaximalSymbolRun(src, p, ScanAt(src, p).value.1)
    ensures ScanAt(src, p).value.0
         == Token(WordType(src[p..ScanAt(src, p).value.1]), p, ScanAt(src, p).value.1 - p)
  {
    if src[p] in "bi" {
      BranchesBI(src, p);
    } else if src[p] in "mn" {
      BranchesMN(src, p);
    } else if src[p] in "st" {
      BranchesST(src, p);
    } else if src[p] in "efl" {
      // `ScanE`, `ScanF` and `ScanL` state the type themselves.
    } else {
      var e := ScanAt(src, p).value.1;
      PlainBranch(src[p..e]);
    }
  }

  /** Every reserved word is made of symbol characters, has at least two of
      them, and starts with a letter the dispatch lists. */
  lemma ReservedShape(w: string)
    requires IsReserved(w)
    ensures 2 <= |w| && w[0] !in UndispatchedLetters
    ensures forall k :: 0 <= k < |w| ==> IsSymbolChar(w[k])
  {
  }

  /** Every reserved word is told apart from the others after one
      character, or two for those starting with `e`, `f` or `l`. */
  lemma ReservedPrefix(w: string)
    requires IsReserved(w)
    ensures 2 <= |w| && (w, if w[0] in "efl" then 2 else 1) in DispatchPrefixes
  {
  }

  /** An occurrence of a reserved word in the buffer is a run of symbol
      characters that starts with a dispatched letter. */
  lemma ReservedOccurrence(src: string, p: nat, w: string)
    requires IsReserved(w) && p + |w| <= |src| && src[p..p + |w|] == w
    ensures 2 <= |w| && src[p] == w[0] && src[p] !in UndispatchedLetters
    ensures forall k :: p <= k < p + |w| ==> IsSymbolChar(src[k])
  {
    ReservedShape(w);
    forall k | p <= k < p + |w|
      ensures IsSymbolChar(src[k])
    {
      assert src[k] == src[p..p + |w|][k - p];
    }
  }

  /** The table gives every reserved word a keyword type. */
  lemma ReservedTypes(w: string)
    ensures IsReserved(w) <==> IsKeywordType(WordType(w))
  {
  }

  /** No reserved word is a proper prefix of another. */
  lemma NoReservedExtension(w: string, v: string)
    requires IsReserved(w) && |w| < |v| && v[..|w|] == w
    ensures !IsReserved(v)
  {
    ReservedPrefix(w);
    var k := if w[0] in "efl" then 2 else 1;
    assert v[..k] == w[..k];
    PrefixDecides(v, w, k);
  }

  /** What a word token is when the buffer holds the reserved word `w` at
      its start: exactly `w` when a non-symbol character follows, a longer
      `Symbol` otherwise. */
  lemma ReservedRun(src: string, p: nat, w: string, t: Token, e: nat)
    requires IsReserved(w) && p + |w| < |src| && src[p..p + |w|] == w
    requires MaximalSymbolRun(src, p, e) && t == Token(WordType(src[p..e]), p, e - p)
    ensures !IsSymbolChar(src[p + |w|]) ==> e == p + |w| && t == Token(WordType(w), p, |w|)
    ensures IsSymbolChar(src[p + |w|]) ==> p + |w| < e && t.kind == Symbol
  {
    ReservedOccurrence(src, p, w);
    RunCoversPrefix(src, p, |w|, e);
    if IsSymbolChar(src[p + |w|]) {
      assert src[p..e][..|w|] == w;
      NoReservedExtension(w, src[p..e]);
    }
  }

  /** A maximal run from `p` that starts with `n` symbol characters stops
      right after them exactly when the next character is not one. */
  lemma RunCoversPrefix(src: string, p: nat, n: nat, e: nat)
    requires p + n < |src| && MaximalSymbolRun(src, p, e)
    requires forall k :: p <= k < p + n ==> IsSymbolChar(src[k])
    ensures IsSymbolChar(src[p + n]) ==> p + n < e
    ensures !IsSymbolChar(src[p + n]) ==> e == p + n
  {
  }

  /** A reserved word followed by a non-symbol character is scanned as that
      word's keyword token, spanning exactly the word. */
  lemma KeywordAlone(src: string, p: nat, w: string)
    requires ValidSource(src) && IsReserved(w)
    requires p + |w| < |src| && src[p..p + |w|] == w
    requires !IsSymbolChar(src[p + |w|])
    ensures ScanAt(src, p) == Ok((Token(WordType(w), p, |w|), p + |w|))
  {
    ReservedOccurrence(src, p, w);
    WordLaw(src, p);
    var (t, e) := ScanAt(src, p).value;
    ReservedRun(src, p, w, t, e);
  }

  /** A reserved word followed by a symbol character is only the beginning
      of one `Symbol` token that spans the whole maximal run (so `foreign` is
      one symbol of length 7). */
  lemma KeywordExtended(src: string, p: nat, w: string)
    requires ValidSource(src) && IsReserved(w)
    requires p + |w| < |src| && src[p..p + |w|] == w
    requires IsSymbolChar(src[p + |w|])
    ensures ScanAt(src, p).Ok?
    ensures ScanAt(src, p).value.0.kind == Symbol
    ensures p + |w| < ScanAt(src, p).value.1
    ensures ScanAt(src, p).value.0.length == ScanAt(src, p).value.1 - p
    ensures MaximalSymbolRun(src, p, ScanAt(src, p).value.1)
  {
    ReservedOccurrence(src, p, w);
    WordLaw(src, p);
    var (t, e) := ScanAt(src, p).value;
    ReservedRun(src, p, w, t, e);
  }

  /** The integer-literal law: a digit starts an integer literal that is the
      maximal run of digits from it. */
  lemma IntegerLaw(src: string, p: nat)
    requires ValidSource(src) && p < |src| && IsDigit(src[p])
    ensures ScanAt(src, p).Ok?
    ensures MaximalDigitRun(src, p, ScanAt(src, p).value.1) && p < ScanAt(src, p).value.1
    ensures ScanAt(src, p).value.0 == Token(IntegerLiteral, p, ScanAt(src, p).value.1 - p)
  {
  }

  /** The one-character punctuation law: each character of the table is a
      token of length one of the type the table gives it. */
  lemma PunctuationLaw(src: string, p: nat)
    requires ValidSource(src) && p < |src| && src[p] in SingleCharTokens
    ensures ScanAt(src, p) == Ok((Token(SingleCharTokens[src[p]], p, 1), p + 1))
  {
  }

  /** The lookahead law: `-` and `=` are two-character arrows when `>`
      follows them, and one-character tokens otherwise. In particular a `-`
      never starts an integer literal. */
  lemma LookaheadLaw(src: string, p: nat)
    requires ValidSource(src) && p < |src| && (src[p] == '-' || src[p] == '=')
    ensures p + 1 < |src|
    ensures src[p + 1] == '>' ==>
      ScanAt(src, p) == Ok((Token(if src[p] == '-' then ArrowSingle else ArrowDouble, p, 2), p + 2))
    ensures src[p + 1] != '>' ==>
      ScanAt(src, p) == Ok((Token(if src[p] == '-' then Minus else Equals, p, 1), p + 1))
  {
  }

  /** The string loop passes over a well-formed body without stopping: after
      the body `src[q + 1..k]` it is where it would be had it started just
      before `k`. */
  lemma {:induction false} StringBodySkipped(src: string, q: nat, k: nat)
    requires ValidSource(src) && q < k < |src|
    requires EscapedText(src, q + 1, k)
    ensures StringEnd(src, q) == StringEnd(src, k - 1)
    decreases k - q
  {
    if q + 1 < k {
      if src[q + 1] == '\\' {
        StringBodySkipped(src, q + 2, k);
      } else {
        StringBodySkipped(src, q + 1, k);
      }
    }
  }

  /** The string-literal law: after an opening quote and a well-formed body,
      a quote closes the literal (the token includes both quotes), a `\` not
      followed by `0` is an unsupported escape, and the sentinel means the
      literal is unterminated. */
  lemma StringLaw(src: string, p: nat, k: nat)
    requires ValidSource(src) && p < k < |src| && src[p] == '\''
    requires EscapedText(src, p + 1, k)
    ensures src[k] == '\'' ==>
      ScanAt(src, p) == Ok((Token(StringLiteralSingle, p, k + 1 - p), k + 1))
    ensures src[k] == '\\' ==> k + 1 < |src|
    ensures src[k] == '\\' && src[k + 1] != '0' ==>
      ScanAt(src, p) == Err(UnsupportedEscape(k + 1))
    ensures src[k] == '\0' ==> ScanAt(src, p) == Err(UnterminatedString(k))
  {
    StringBodySkipped(src, p, k);
  }

  /** The end-of-input law: at the sentinel the scan yields END, of length
      zero, and leaves the cursor on the sentinel, so scanning again yields
      END again. */
  lemma EndLaw(src: string, sc: Scanner)
    requires ValidSource(src) && sc.cursor < |src|
    requires src[SkipBlanks(src, sc.cursor)] == '\0'
    ensures Scan(src, sc) == Ok(Scanned(Token(End, |src| - 1, 0), sc.(cursor := |src| - 1)))
    ensures Scan(src, Scan(src, sc).value.next) == Scan(src, sc)
  {
  }

  /** A character with no case in the dispatch is an error, reported at its
      position. */
  lemma UnrecognizedLaw(src: string, p: nat)
    requires ValidSource(src) && p < |src| && !StartsToken(src[p])
    ensures ScanAt(src, p) == Err(UnrecognizedCharacter(p, src[p]))
  {
  }

  /** Tab, carriage return, `>` and the lower-case letters the dispatch does
      not list start no token. */
  lemma RejectedCharacters(c: char)
    requires c in "\t\r>" || c in UndispatchedLetters
    ensures !StartsToken(c)
  {
  }

  /** `GreaterThan` is declared but no scan produces it. */
  lemma NoGreaterThan(src: string, p: nat)
    requires ValidSource(src) && p < |src|
    ensures ScanAt(src, p).Ok? ==> ScanAt(src, p).value.0.kind != GreaterThan
  {
    if IsSymbolChar(src[p]) && src[p] !in UndispatchedLetters {
      WordLaw(src, p);
    }
  }

  /** Skipping blanks from anywhere inside a run of blanks ends at the same
      place. */
  lemma {:induction false} SkipBlanksAcross(src: string, i: nat, j: nat)
    requires ValidSource(src) && i <= j < |src| && AllBlank(src, i, j)
    ensures SkipBlanks(src, i) == SkipBlanks(src, j)
    decreases j - i
  {
    if i < j {
      SkipBlanksAcross(src, i + 1, j);
    }
  }

  /** Blanks before a token do not change it: scanning from anywhere in the
      run of blanks yields the same token and the same scanner state. */
  lemma BlanksDoNotMatter(src: string, sc: Scanner, j: nat)
    requires ValidSource(src) && sc.cursor <= j < |src| && AllBlank(src, sc.cursor, j)
    ensures Scan(src, sc) == Scan(src, sc.(cursor := j))
  {
    SkipBlanksAcross(src, sc.cursor, j);
  }


  /** Every `Symbol` and keyword token consists of symbol characters only and
      is maximal: the character after it is not a symbol character. */
  lemma WordTokensAreMaximal(src: string, p: nat)
    requires ValidSource(src) && p < |src| && ScanAt(src, p).Ok?
    requires ScanAt(src, p).value.0.kind == Symbol || IsKeywordType(ScanAt(src, p).value.0.kind)
    ensures MaximalSymbolRun(src, p, ScanAt(src, p).value.1)
    ensures ScanAt(src, p).value.0.kind == WordType(src[p..ScanAt(src, p).value.1])
  {
    if IsSymbolChar(src[p]) {
      WordLaw(src, p);
    }
  }

}

=== FILE: scanning.dfy ===
/** The C scanner of bootstrap.c: one call of `Scan` produces one token.

    The buffer is an immutable `string` ending in the NUL sentinel and the
    scanner's cursor is an index into it; every C pointer `self->source` is
    modelled by that index. Each `assert(false)` of the C code is an `Err`
    result here. */
module Scanning {
  import opened Wrappers
  import opened Tokens
  import opened ReservedWords

  /** The scanner state. `line` starts at 1 and is never changed by the C
      code; `panic` is never read or written after initialisation. */
  datatype Scanner = Scanner(cursor: nat, line: nat, panic: bool)

  /** The three places where the C scanner aborts. */
  datatype ScanError =
    | UnsupportedEscape(at: nat)                // a `\` not followed by `0`
    | UnterminatedString(at: nat)               // the sentinel inside a string
    | UnrecognizedCharacter(at: nat, ch: char)  // no case for this character

  /** A token together with the scanner state after it. */
  datatype Scanned = Scanned(token: Token, next: Scanner)

  /** A fresh scanner at the start of the buffer: on line 1, not panicking,
      its cursor inside every well-formed buffer. */
  function Init(): (r: Scanner)
    ensures r.cursor == 0 && r.line == 1 && !r.panic
    ensures forall src :: ValidSource(src) ==> r.cursor < |src|
  {
    Scanner(0, 1, false)
  }

  /** The loop of `Scanner_consumeWhitespace`: the first position at or after
      `i` that holds neither a space nor a newline. */
  function SkipBlanks(src: string, i: nat): (j: nat)
    requires ValidSource(src) && i < |src|
    ensures i <= j < |src|
    ensures AllBlank(src, i, j) && !IsBlank(src[j])
    decreases |src| - i
  {
    if IsBlank(src[i]) then SkipBlanks(src, i + 1) else i
  }

  /** The loop of `Scanner_symbol`: where the run of symbol characters that
      starts at `i` ends. */
  function SymbolRunEnd(src: string, i: nat): (e: nat)
    requires ValidSource(src) && i < |src|
    ensures MaximalSymbolRun(src, i, e)
    decreases |src| - i
  {
    if IsSymbolChar(src[i]) then SymbolRunEnd(src, i + 1) else i
  }

  /** The digit loop of the integer-literal case of `Scanner_scan`. */
  function DigitRunEnd(src: string, i: nat): (e: nat)
    requires ValidSource(src) && i < |src|
    ensures MaximalDigitRun(src, i, e)
    decreases |src| - i
  {
    if IsDigit(src[i]) then DigitRunEnd(src, i + 1) else i
  }

  /** `Scanner_symbol`: continue the identifier from the cursor `cur` and
      return a `Symbol` token reaching back to `start`. The characters already
      passed over are symbol characters, so the token is the maximal run from
      `start`. */
  function ScanSymbol(src: string, start: nat, cur: nat): (r: (Token, nat))
    requires ValidSource(src) && start <= cur < |src|
    requires forall k :: start <= k < cur ==> IsSymbolChar(src[k])
    ensures cur <= r.1 && MaximalSymbolRun(src, start, r.1)
    ensures r.0 == Token(Symbol, start, r.1 - start)
  {
    var e := SymbolRunEnd(src, cur);
    (Token(Symbol, start, e - start), e)
  }

  /** `Scanner_keyword`: match the rest `suffix` of a reserved word at the
      cursor; on a mismatch, or when a symbol character follows the whole
      word, fall back to `Scanner_symbol` without moving the cursor back.
      Whatever happens, the token is the maximal run from `start`, and it has
      the keyword's type exactly when that run, read from `cur`, is `suffix`. */
  function ScanKeyword(src: string, kind: TokenType, start: nat, cur: nat, suffix: string)
    : (r: (Token, nat))
    requires ValidSource(src) && start <= cur < |src|
    requires forall k :: start <= k < cur ==> IsSymbolChar(src[k])
    requires forall k :: 0 <= k < |suffix| ==> IsSymbolChar(suffix[k])
    ensures r.0.start == start && r.0.Stop() == r.1
    ensures cur <= r.1 && MaximalSymbolRun(src, start, r.1)
    ensures r.0.kind == (if src[cur..r.1] == suffix then kind else Symbol)
    decreases |suffix|
  {
    if |suffix| == 0 then
      if IsSymbolChar(src[cur]) then ScanSymbol(src, start, cur)
      else (Token(kind, start, cur - start), cur)
    else if suffix[0] == src[cur] then
      assert IsSymbolChar(src[cur]);
      var r := ScanKeyword(src, kind, start, cur + 1, suffix[1..]);
      assert src[cur..r.1] == suffix <==> src[cur + 1..r.1] == suffix[1..] by {
        if src[cur + 1..r.1] == suffix[1..] {
          assert src[cur..r.1] == [src[cur]] + src[cur + 1..r.1];
        }
        if src[cur..r.1] == suffix {
          assert src[cur + 1..r.1] == src[cur..r.1][1..];
        }
      }
      r
    else
      var r := ScanSymbol(src, start, cur);
      assert src[cur..r.1] != suffix by {
        if r.1 > cur {
          assert src[cur..r.1][0] == src[cur];
        }
      }
      r
  }

  /** `Scanner_singleCharToken`: the one character under the cursor. */
  function SingleCharToken(p: nat, kind: TokenType): (r: (Token, nat))
    ensures r.0 == Token(kind, p, 1) && r.1 == r.0.Stop()
  {
    (Token(kind, p, 1), p + 1)
  }

  /** `Scanner_doubleCharToken`: the two characters from the cursor. */
  function DoubleCharToken(p: nat, kind: TokenType): (r: (Token, nat))
    ensures r.0 == Token(kind, p, 2) && r.1 == r.0.Stop()
  {
    (Token(kind, p, 2), p + 2)
  }

  /** The string-literal loop of `Scanner_scan`: the position just after the
      closing quote. `p` is the last position consumed; the loop looks at
      `p + 1`. A literal ends at the first quote that is not part of a
      well-formed body; the scan fails at the first bad escape or at the
      sentinel, whichever the body reaches first. */
  function StringEnd(src: string, p: nat): (r: Result<nat, ScanError>)
    requires ValidSource(src) && p < |src| - 1
    ensures r.Ok? ==>
      && p + 2 <= r.value < |src|
      && src[r.value - 1] == '\''
      && EscapedText(src, p + 1, r.value - 1)
    ensures r.Err? && r.error.UnsupportedEscape? ==>
      && p + 2 <= r.error.at < |src|
      && src[r.error.at - 1] == '\\' && src[r.error.at] != '0'
      && EscapedText(src, p + 1, r.error.at - 1)
    ensures r.Err? && r.error.UnterminatedString? ==>
      && p < r.error.at == |src| - 1
      && EscapedText(src, p + 1, r.error.at)
    ensures r.Err? ==> !r.error.UnrecognizedCharacter?
    decreases |src| - p
  {
    var q := p + 1;
    var c := src[q];
    if c == '\'' then
      Ok(q + 1)
    else if c == '\\' then
      if src[q + 1] == '0' then StringEnd(src, q + 1)
      else Err(UnsupportedEscape(q + 1))
    else if c == '\0' then
      Err(UnterminatedString(q))
    else
      StringEnd(src, q)
  }

  /** The integer-literal case of `Scanner_scan`: the maximal run of digits
      from `p`. */
  function ScanInteger(src: string, p: nat): (r: (Token, nat))
    requires ValidSource(src) && p < |src| && IsDigit(src[p])
    ensures p < r.1 && MaximalDigitRun(src, p, r.1)
    ensures r.0 == Token(IntegerLiteral, p, r.1 - p)
  {
    var e := DigitRunEnd(src, p + 1);
    (Token(IntegerLiteral, p, e - p), e)
  }

  /** A keyword branch of the dispatch that has already matched the first
      two characters of `word`: `Scanner_keyword` with the rest of the word
      as its suffix. The token is the maximal run, of the type the
      reserved-word table gives it. */
  function SecondCharKeyword(src: string, p: nat, kind: TokenType, word: string)
    : (r: (Token, nat))
    requires ValidSource(src) && p + 1 < |src|
    requires (word, 2) in DispatchPrefixes && kind == WordType(word)
    requires forall k :: 0 <= k < |word| ==> IsSymbolChar(word[k])
    requires src[p] == word[0] && src[p + 1] == word[1]
    ensures r.0.start == p && r.1 == r.0.Stop() && r.0.kind != End
    ensures MaximalSymbolRun(src, p, r.1)
    ensures r.0.kind == WordType(src[p..r.1])
  {
    var r := ScanKeyword(src, kind, p, p + 2, word[2..]);
    KeywordBranch(src, p, r.1, word, 2, r.0.kind);
    r
  }

  /** The `e` case of `Scanner_scan`: `else` and `enum` are told apart by
      the second character; the token is the maximal run, of the type the
      reserved-word table gives it. */
  function ScanE(src: string, p: nat): (r: (Token, nat))
    requires ValidSource(src) && p < |src| && src[p] == 'e'
    ensures r.0.start == p && r.1 == r.0.Stop() && r.0.kind != End
    ensures MaximalSymbolRun(src, p, r.1)
    ensures r.0.kind == WordType(src[p..r.1])
  {
    match src[p + 1]
    case 'l' => SecondCharKeyword(src, p, Else, "else")
    case 'n' => SecondCharKeyword(src, p, Enum, "enum")
    case _ =>
      var r := ScanSymbol(src, p, p + 1);
      SecondChar(src, p, r.1);
      PlainBranch(src[p..r.1]);
      r
  }

  /** The `f` case: `false`, `for` and `fn` are told apart by the second
      character. */
  function ScanF(src: string, p: nat): (r: (Token, nat))
    requires ValidSource(src) && p < |src| && src[p] == 'f'
    ensures r.0.start == p && r.1 == r.0.Stop() && r.0.kind != End
    ensures MaximalSymbolRun(src, p, r.1)
    ensures r.0.kind == WordType(src[p..r.1])
  {
    match src[p + 1]
    case 'a' => SecondCharKeyword(src, p, BooleanLiteralFalse, "false")
    case 'o' => SecondCharKeyword(src, p, For, "for")
    case 'n' => SecondCharKeyword(src, p, Fn, "fn")
    case _ =>
      var r := ScanSymbol(src, p, p + 1);
      SecondChar(src, p, r.1);
      PlainBranch(src[p..r.1]);
      r
  }

  /** The `l` case: `let` and `loop` are told apart by the second
      character. */
  function ScanL(src: string, p: nat): (r: (Token, nat))
    requires ValidSource(src) && p < |src| && src[p] == 'l'
    ensures r.0.start == p && r.1 == r.0.Stop() && r.0.kind != End
    ensures MaximalSymbolRun(src, p, r.1)
    ensures r.0.kind == WordType(src[p..r.1])
  {
    match src[p + 1]
    case 'e' => SecondCharKeyword(src, p, Let, "let")
    case 'o' => SecondCharKeyword(src, p, Loop, "loop")
    case _ =>
      var r := ScanSymbol(src, p, p + 1);
      SecondChar(src, p, r.1);
      PlainBranch(src[p..r.1]);
      r
  }

  /** The letter and underscore cases of `Scanner_scan`: dispatch on the
      first (and for `e`, `f` and `l` the second) character to
      `Scanner_keyword`, or go straight to `Scanner_symbol`. The lower-case
      letters the C switch does not list fall to its default branch, which
      aborts. Every token is the maximal run of symbol characters from `p`. */
  function ScanWord(src: string, p: nat): (r: Result<(Token, nat), ScanError>)
    requires ValidSource(src) && p < |src| && IsSymbolChar(src[p])
    ensures r.Ok? ==> r.value.0.start == p && r.value.1 == r.value.0.Stop()
    ensures r.Ok? ==> MaximalSymbolRun(src, p, r.value.1) && r.value.0.kind != End
    ensures r.Err? <==> src[p] in UndispatchedLetters
    ensures r.Err? ==> r.error == UnrecognizedCharacter(p, src[p])
  {
    // The lower-case letters without a case of their own reach the default
    // branch of the C switch.
    if src[p] in UndispatchedLetters then Err(UnrecognizedCharacter(p, src[p]))
    else match src[p]
    case 'b' => Ok(ScanKeyword(src, Break, p, p + 1, "reak"))
    case 'e' => Ok(ScanE(src, p))
    case 'f' => Ok(ScanF(src, p))
    case 'i' => Ok(ScanKeyword(src, If, p, p + 1, "f"))
    case 'l' => Ok(ScanL(src, p))
    case 'm' => Ok(ScanKeyword(src, Match, p, p + 1, "atch"))
    case 'n' => Ok(ScanKeyword(src, NilLiteral, p, p + 1, "il"))
    case 's' => Ok(ScanKeyword(src, Struct, p, p + 1, "truct"))
    case 't' => Ok(ScanKeyword(src, BooleanLiteralTrue, p, p + 1, "rue"))
    case _ =>
      // '_', 'A'..'Z' and a c d o p r: straight to `Scanner_symbol`
      Ok(ScanSymbol(src, p, p + 1))
  }

  /** The remaining cases of `Scanner_scan`: string literals, punctuation with
      its one-character lookahead for `->` and `=>`, the sentinel, and the
      abort for everything else. */
  function ScanOther(src: string, p: nat): (r: Result<(Token, nat), ScanError>)
    requires ValidSource(src) && p < |src|
    requires !IsDigit(src[p]) && !IsSymbolChar(src[p])
    ensures r.Ok? ==> r.value.0.start == p && r.value.1 == r.value.0.Stop() < |src|
    ensures r.Ok? ==> (r.value.0.kind == End <==> src[p] == '\0')
    ensures r.Ok? ==> (r.value.0.kind == End <==> r.value.0.length == 0)
    ensures r.Err? ==> p <= r.error.at < |src|
    ensures r.Err? && r.error.UnrecognizedCharacter? <==> !StartsToken(src[p])
    ensures r.Err? && r.error.UnrecognizedCharacter? ==> r.error == UnrecognizedCharacter(p, src[p])
  {
    match src[p]
    case '\'' =>
      (match StringEnd(src, p)
       case Ok(e) => Ok((Token(StringLiteralSingle, p, e - p), e))
       case Err(err) => Err(err))
    case '&' => Ok(SingleCharToken(p, Ampersand))
    case '{' => Ok(SingleCharToken(p, BraceOpen))
    case '}' => Ok(SingleCharToken(p, BraceClose))
    case ',' => Ok(SingleCharToken(p, Comma))
    case '(' => Ok(SingleCharToken(p, ParenOpen))
    case ')' => Ok(SingleCharToken(p, ParenClose))
    case '.' => Ok(SingleCharToken(p, Period))
    case ';' => Ok(SingleCharToken(p, Semicolon))
    case '*' => Ok(SingleCharToken(p, Star))
    case '-' =>
      if src[p + 1] == '>' then Ok(DoubleCharToken(p, ArrowSingle))
      else Ok(SingleCharToken(p, Minus))
    case '=' =>
      if src[p + 1] == '>' then Ok(DoubleCharToken(p, ArrowDouble))
      else Ok(SingleCharToken(p, Equals))
    case '\0' => Ok((Token(End, p, 0), p))
    case _ => Err(UnrecognizedCharacter(p, src[p]))
  }

  /** The switch of `Scanner_scan` at the non-blank position `p`. The token
      starts at `p` and the cursor ends just after it. END is the only empty
      token and is produced exactly at the sentinel. The scan fails as an
      unrecognised character exactly when no case covers `src[p]`. */
  function ScanAt(src: string, p: nat): (r: Result<(Token, nat), ScanError>)
    requires ValidSource(src) && p < |src|
    ensures r.Ok? ==> r.value.0.start == p && r.value.1 == r.value.0.Stop() < |src|
    ensures r.Ok? ==> (r.value.0.kind == End <==> src[p] == '\0')
    ensures r.Ok? ==> (r.value.0.kind == End <==> r.value.0.length == 0)
    ensures r.Err? ==> p <= r.error.at < |src|
    ensures r.Err? && r.error.UnrecognizedCharacter? <==> !StartsToken(src[p])
    ensures r.Err? && r.error.UnrecognizedCharacter? ==> r.error == UnrecognizedCharacter(p, src[p])
  {
    if IsDigit(src[p]) then Ok(ScanInteger(src, p))
    else if IsSymbolChar(src[p]) then ScanWord(src, p)
    else ScanOther(src, p)
  }

  /** `Scanner_scan`: skip blanks, then scan one token at the first non-blank
      position. Only the cursor of the scanner changes: the line counter and
      the panic flag are left as they were. */
  function Scan(src: string, sc: Scanner): (r: Result<Scanned, ScanError>)
    requires ValidSource(src) && sc.cursor < |src|
    ensures r.Ok? ==>
      && r.value.token.start == SkipBlanks(src, sc.cursor)
      && r.value.next == sc.(cursor := r.value.token.Stop())
      && r.value.next.cursor < |src|
      && (r.value.token.kind == End <==> r.value.token.length == 0)
      && (r.value.token.kind == End <==> src[r.value.token.start] == '\0')
    ensures r.Err? ==> SkipBlanks(src, sc.cursor) <= r.error.at < |src|
  {
    match ScanAt(src, SkipBlanks(src, sc.cursor))
    case Ok((t, e)) => Ok(Scanned(t, sc.(cursor := e)))
    case Err(err) => Err(err)
  }

}

=== FILE: token_stream.dfy ===
/** Repeated scanning: the loop of the driver in bootstrap.c, without the
    printing, as a function from the buffer to the whole token stream. */
module TokenStream {
  import opened Wrappers
  import opened Tokens
  import opened Scanning

  /** `toks` tiles `src` from `pos`: the buffer from `pos` on is exactly a
      sequence of blank gaps and the spans of the tokens, in order, and the
      last token is END on the sentinel. Every non-blank character before the
      sentinel therefore lies in exactly one token. */
  ghost predicate Tiles(src: string, pos: nat, toks: seq<Token>)
    requires ValidSource(src)
    decreases |toks|
  {
    && |toks| > 0
    && pos <= toks[0].start <= toks[0].Stop() < |src|
    && AllBlank(src, pos, toks[0].start)
    && if |toks| == 1 then
         toks[0] == Token(End, |src| - 1, 0)
       else
         && toks[0].kind != End
         && 0 < toks[0].length
         && Tiles(src, toks[0].Stop(), toks[1..])
  }

  /** Scan until END or the first error. Every scan that is not END moves
      the cursor forward, so the loop ends, after at most one token per
      remaining character, and the tokens tile the rest of the buffer. */
  function Tokenize(src: string, sc: Scanner): (r: Result<seq<Token>, ScanError>)
    requires ValidSource(src) && sc.cursor < |src|
    ensures r.Ok? ==> Tiles(src, sc.cursor, r.value)
    ensures r.Ok? ==> |r.value| <= |src| - sc.cursor
    decreases |src| - sc.cursor
  {
    match Scan(src, sc)
    case Err(e) => Err(e)
    case Ok(Scanned(t, next)) =>
      if t.kind == End then Ok([t])
      else
        match Tokenize(src, next)
        case Err(e) => Err(e)
        case Ok(rest) =>
          assert ([t] + rest)[1..] == rest;
          Ok([t] + rest)
  }

  /** The stream is what the driver's loop sees: each token is the one a
      scan at its own start returns, the first starts after the blanks at
      the cursor, and each later one after the blanks that follow the token
      before it. So the kinds in the stream are the kinds `ScanAt` gives,
      and every law stated about `ScanAt` holds of every token. */
  lemma {:induction false} TokenizeScans(src: string, sc: Scanner, toks: seq<Token>)
    requires ValidSource(src) && sc.cursor < |src| && Tokenize(src, sc) == Ok(toks)
    ensures 0 < |toks| && toks[0].start == SkipBlanks(src, sc.cursor)
    ensures forall i :: 0 <= i < |toks| ==>
      && toks[i].Stop() < |src|
      && ScanAt(src, toks[i].start) == Ok((toks[i], toks[i].Stop()))
    ensures forall i :: 0 < i < |toks| ==>
      toks[i].start == SkipBlanks(src, toks[i - 1].Stop())
    decreases |src| - sc.cursor
  {
    var scanned := Scan(src, sc).value;
    var t, next := scanned.token, scanned.next;
    assert ScanAt(src, SkipBlanks(src, sc.cursor)) == Ok((t, t.Stop()));
    if t.kind != End {
      var rest := Tokenize(src, next).value;
      TokenizeScans(src, next, rest);
      assert toks == [t] + rest;
      forall i | 0 < i < |toks|
        ensures toks[i].start == SkipBlanks(src, toks[i - 1].Stop())
      {
        if i == 1 {
          assert toks[i] == rest[0];
        } else {
          assert toks[i] == rest[i - 1] && toks[i - 1] == rest[i - 2];
        }
      }
    }
  }

  /** `q` is a position the driver loop scans at when started from the
      cursor `i`: the first non-blank position, or one reached after a scan
      there that succeeded with a token other than END. */
  ghost predicate Reached(src: string, i: nat, q: nat)
    requires ValidSource(src) && i < |src|
    decreases |src| - i
  {
    var p := SkipBlanks(src, i);
    || q == p
    || (&& ScanAt(src, p).Ok?
        && ScanAt(src, p).value.0.kind != End
        && Reached(src, ScanAt(src, p).value.1, q))
  }

  /** A failing stream fails at the first scan of the loop that fails: its
      error is the one `ScanAt` returns at a position the loop reaches, every
      scan before it having succeeded with a token other than END. So the
      stream is `Ok` whenever no scan at a reached position fails. */
  lemma {:induction false} TokenizeErr(src: string, sc: Scanner)
    requires ValidSource(src) && sc.cursor < |src| && Tokenize(src, sc).Err?
    ensures sc.cursor <= Tokenize(src, sc).error.at < |src|
    ensures exists q: nat :: q < |src| && Reached(src, sc.cursor, q)
                             && ScanAt(src, q) == Err(Tokenize(src, sc).error)
    decreases |src| - sc.cursor
  {
    var p := SkipBlanks(src, sc.cursor);
    match Scan(src, sc)
    case Err(e) =>
      assert ScanAt(src, p) == Err(e);
      assert Reached(src, sc.cursor, p);
    case Ok(Scanned(t, next)) =>
      assert ScanAt(src, p) == Ok((t, next.cursor));
      TokenizeErr(src, next);
      var q: nat :| q < |src| && Reached(src, next.cursor, q)
                   && ScanAt(src, q) == Err(Tokenize(src, next).error);
      assert Reached(src, sc.cursor, q);
  }

}

=== FILE: tokens.dfy ===
/** The token taxonomy, the source buffer and the character classes of the
    bootstrap scanner (bootstrap.c). */
module Tokens {

  /** Every lexical category of the scanner, in the order bootstrap.c declares
      them. `GreaterThan` is declared but never produced. */
  datatype TokenType =
    | ArrowSingle | ArrowDouble | Ampersand
    | BooleanLiteralFalse | BooleanLiteralTrue
    | BraceOpen | BraceClose | Break | Comma | Else | Enum | End | Equals
    | Fn | For | GreaterThan | If | IntegerLiteral | Let | Loop | Match
    | Minus | NilLiteral | ParenOpen | ParenClose | Period | Semicolon
    | Star | StringLiteralSingle | Struct | Symbol

  /** A token does not copy its text: it names the sub-range
      `[start, start + length)` of the source buffer. */
  datatype Token = Token(kind: TokenType, start: nat, length: nat)
  {
    /** The position just after the lexeme. */
    function Stop(): nat { start + length }
  }

  /** The buffer the scanner walks: terminated by a NUL sentinel, with no NUL
      before it. */
  predicate ValidSource(src: string) {
    && |src| > 0
    && src[|src| - 1] == '\0'
    && forall i :: 0 <= i < |src| - 1 ==> src[i] != '\0'
  }

  /** The characters identifiers are made of, spelled out. */
  const SymbolAlphabet: string :=
    "_" + "ABCDEFGHIJKLM" + "NOPQRSTUVWXYZ" + "abcdefghijklm" + "nopqrstuvwxyz"

  const DecimalDigits: string := "0123456789"

  /** `isSymbolChar`: the character class of identifiers. */
  predicate IsSymbolChar(c: char) {
    c == '_' || ('A' <= c <= 'Z') || ('a' <= c <= 'z')
  }

  predicate IsDigit(c: char) {
    '0' <= c <= '9'
  }

  /** The symbol characters are exactly the underscore and the 52 ASCII
      letters; no digit is one. */
  lemma SymbolCharsAreLetters(c: char)
    ensures IsSymbolChar(c) <==> c in SymbolAlphabet
    ensures IsDigit(c) <==> c in DecimalDigits
    ensures IsDigit(c) ==> !IsSymbolChar(c)
  {
  }

  /** The only two characters the C scanner skips between tokens. */
  predicate IsBlank(c: char) {
    c == ' ' || c == '\n'
  }

  /** Every character of `src[i..j]` is blank. */
  ghost predicate AllBlank(src: string, i: nat, j: nat)
    requires i <= j <= |src|
  {
    forall k :: i <= k < j ==> IsBlank(src[k])
  }

  /** `[i, e)` is a maximal run of symbol characters starting at `i`. */
  ghost predicate MaximalSymbolRun(src: string, i: nat, e: nat) {
    && i <= e < |src|
    && (forall k :: i <= k < e ==> IsSymbolChar(src[k]))
    && !IsSymbolChar(src[e])
  }

  /** `[i, e)` is a maximal run of decimal digits starting at `i`. */
  ghost predicate MaximalDigitRun(src: string, i: nat, e: nat) {
    && i <= e < |src|
    && (forall k :: i <= k < e ==> IsDigit(src[k]))
    && !IsDigit(src[e])
  }

  /** `src[i..j]` is a well-formed string-literal body: plain characters (no
      quote, no NUL) and `\0` escapes, nothing else. */
  ghost predicate EscapedText(src: string, i: nat, j: nat)
    requires i <= j <= |src|
    decreases j - i
  {
    if i == j then true
    else if src[i] == '\\' then i + 2 <= j && src[i + 1] == '0' && EscapedText(src, i + 2, j)
    else src[i] != '\'' && src[i] != '\0' && EscapedText(src, i + 1, j)
  }

  /** The reserved-word table: the token type a complete identifier-shaped
      word deserves, which is `Symbol` for every word that is not reserved. */
  function WordType(w: string): TokenType {
    if w == "break" then Break
    else if w == "else" then Else
    else if w == "enum" then Enum
    else if w == "false" then BooleanLiteralFalse
    else if w == "for" then For
    else if w == "fn" then Fn
    else if w == "if" then If
    else if w == "let" then Let
    else if w == "loop" then Loop
    else if w == "match" then Match
    else if w == "nil" then NilLiteral
    else if w == "struct" then Struct
    else if w == "true" then BooleanLiteralTrue
    else Symbol
  }

  predicate IsReserved(w: string) {
    WordType(w) != Symbol
  }

  /** The token types of the reserved words. */
  predicate IsKeywordType(t: TokenType) {
    t in {Break, Else, Enum, BooleanLiteralFalse, For, Fn, If, Let, Loop, Match,
          NilLiteral, Struct, BooleanLiteralTrue}
  }

  /** The one-character punctuation tokens. */
  const SingleCharTokens: map<char, TokenType> := map[
    '&' := Ampersand, '{' := BraceOpen, '}' := BraceClose, ',' := Comma,
    '(' := ParenOpen, ')' := ParenClose, '.' := Period, ';' := Semicolon,
    '*' := Star]

  /** The lower-case letters the C dispatch does not list. */
  const UndispatchedLetters: set<char> :=
    {'g', 'h', 'j', 'k', 'q', 'u', 'v', 'w', 'x', 'y', 'z'}

  /** The punctuation characters that begin a token. */
  const Punctuation: string := "'&{},().;*-="

  /** The characters the C dispatch has a case for: digits, the listed
      letters and underscore, the punctuation and the NUL sentinel. */
  predicate StartsToken(c: char) {
    || IsDigit(c)
    || (IsSymbolChar(c) && c !in UndispatchedLetters)
    || c in Punctuation
    || c == '\0'
  }

}

=== FILE: wrappers.dfy ===
/** The result type every fallible scanner operation returns, in place of the
    process-ending `assert(false)` of the C scanner and the `raise` of the
    Python one. */
module Wrappers {

  /** Either a value or the reason there is none. */
  datatype Result<+T, +E> = Ok(value: T) | Err(error: E)

}
